=== FILE: README.md ===
# evolugrid: a Dafny model of the grid's decision logic

evolugrid is a jQuery plugin. It fetches rows from a JSON endpoint and renders them as a table. It pages through them, or scrolls through them endlessly, and it can sort by a column and export to CSV. This project models the plugin's decision logic in `js/evolugrid.js` as pure functions over immutable values, with the DOM, AJAX and `window` calls taken out:

- **Filter resolution** (`_getFilters`) picks exactly one source, in order: explicit filters, the filter callback, the serialized filter form, or none. See module `Filters`.
- **Request parameters** for `refresh` and `scroll` are the filters followed by `offset`, `limit`, `sort_key` and `sort_order`. See module `Requests`.
- **The CSV export URL** is the endpoint, `?` or `&`, one `name=value&` per filter, then `output=csv`. See module `CsvExport`.
- **Cell resolution** has a numeric-zero fix-up. The handler keeps one `html` variable across all its cells, and the model carries that value over explicitly. See module `Cells`.
- **The pager** is the CSV trigger, the previous and next arrows and the "Page n / m" label. See module `Pager`.
- **The headers, the count display and the views** that the success handlers produce. See module `Render`.
- **The navigation state** is a single record for the whole page, because the plugin keeps it in closure variables. It covers sorting and the infinite-scroll state machine (`scrollOffset`, `scrollReady`, `scrollNoMoreResults`), driven by `init`, the scroll handler, form submission, sort clicks, `scroll(init)` and the scroll success handler. See module `Navigation`.
- **Method dispatch** in `$.fn.evolugrid`. See module `Dispatch`.

JavaScript values are modelled by `JsValues.JsValue`, with `Truthy` standing for `if (v)`. A response's `count` is `GridTypes.Count`: a number, `null`, or missing. These three are kept apart because JavaScript treats them differently:

- `null < x` compares `null` as 0.
- `undefined < x` is false.
- `count != null` is false for both `null` and missing.

## Behaviour worth knowing

The model follows the code in each case below.

- **End of scroll.** The code tests `data.count < scrollOffset` (js/evolugrid.js:425). With `count: null` this is `0 < scrollOffset`, which is always true after a response, so the scroll ends after the first page. With no `count` property the test is always false, so the scroll never ends.
- **Resetting the scroll.** `scroll(true)` only zeroes the offset (js/evolugrid.js:345-347); it leaves "no more results" set. Only `init` and a form submission clear that flag (js/evolugrid.js:116, 138, 154).
- **Next arrow with an unknown count.** The test `data.length == limit` for an unknown count sits inside `pageCount > 0`, and `null > 0` is false (js/evolugrid.js:289-307). So an unknown count shows no label and no arrows at all.
- **Where the state lives.** The navigation state is kept in variables of the plugin's closure (js/evolugrid.js:36-42), shared by every grid on the page. The model keeps a single `Navigation.Nav` record.
- **Sort clicks in scroll mode.** A sort click calls `scroll(true)` without setting `scrollReady := false` first, whereas `init` and submission do set it (js/evolugrid.js:74-75, 139, 169). While the sorted request is in flight, reaching the bottom of the page starts another request (`Navigation.SortClickLeavesGuardOpen`).

## Model

| member | source | states |
|---|---|---|
| `JsValues.NatToDecimal` | js/evolugrid.js:298-301 | the number text in the pager label is a non-empty string of decimal digits with no leading zero |
| `JsValues.DecimalRoundTrip` | js/evolugrid.js:298-301 | reading the decimal text of a number back gives the number |
| `JsValues.NumberRoundTrip` | js/evolugrid.js:298-301 | integer-to-text conversion is invertible, so different page numbers give different labels |
| `Filters.GetFilters` | js/evolugrid.js:48-62 | the filters are the explicit ones when given (even an empty array), else the callback's result, else the serialized form, else none |
| `Filters.FirstPresent` | js/evolugrid.js:48-62 | reference precedence rule: the first source present wins, and nothing is returned when no source is present |
| `Filters.GetFiltersIsFirstPresent` | js/evolugrid.js:48-62 | filter resolution is exactly "first present of explicit, callback, form" |
| `Filters.OnlyChosenSourceConsulted` | js/evolugrid.js:48-62 | two resolutions that choose the same source and agree on it give the same filters, whatever the other sources hold |
| `Filters.FormReadOnlyAsLastResort` | js/evolugrid.js:53-59 | the form's serialization affects the result only when there are neither explicit filters nor a callback and a form is configured |
| `Requests.WithPaging` | js/evolugrid.js:215-219 | the filters are kept unchanged as a prefix, followed by exactly `offset`, `limit`, `sort_key`, `sort_order` in that order |
| `Requests.LastValue` | js/evolugrid.js:215-219 | the value kept for a repeated parameter name is that of an entry with the name that no later entry shares, i.e. the last one sent; it is absent only when no entry has the name |
| `Requests.LastValueAppend` | js/evolugrid.js:216-219 | entries appended later hide earlier entries with the same name |
| `Requests.ReservedEntriesWin` | js/evolugrid.js:215-219 | the four paging entries win over any filter with the same name; every other name keeps its filter value |
| `Requests.RefreshParams` | js/evolugrid.js:215-219 | a `refresh(noPage, filters)` request is the resolved filters followed by exactly `offset = noPage * limit`, `limit`, `sort_key`, `sort_order`, and the server reads those four values whatever the filters hold |
| `Requests.ScrollParams` | js/evolugrid.js:350-354 | a `scroll` request is the resolved filters (never explicit ones) followed by exactly `offset` = the current scroll offset, `limit`, `sort_key`, `sort_order`, and the server reads those four values whatever the filters hold |
| `CsvExport.ExportUrl` | js/evolugrid.js:182-191 | the URL starts with the endpoint, then `?` exactly when the endpoint has no `?` (else `&`), and ends with `output=csv` |
| `CsvExport.CsvExportUrl` | js/evolugrid.js:177-191 | the export URL starts with the endpoint, then `?` when the endpoint has no `?` and `&` otherwise, and ends with `output=csv`; when no encoded value or filter name holds a `&`, the query after the separator splits into exactly the `name=encoded value` pairs of the resolved filters, in order, then `output=csv`; it takes no paging or sorting state |
| `CsvExport.ExportUrlShapeWhenUnambiguous` | js/evolugrid.js:182-191 | for any filters: if no encoded value or filter name holds a `&`, the URL's query splits into the filter pairs followed by `output=csv` |
| `CsvExport.ExportQueryRoundTrip` | js/evolugrid.js:188-191 | splitting the query at `&` gives each filter's `name=encoded value` in order and then `output=csv` (if no name holds a `&`) |
| `CsvExport.ExportUrlShape` | js/evolugrid.js:182-191 | everything after the separator splits into the filter pairs followed by `output=csv` |
| `CsvExport.ExportExample` | js/evolugrid.js:182-191 | `/items` filtered on `q = "a b"` exports `/items?q=a%20b&output=csv` |
| `Cells.FieldText` | js/evolugrid.js:262-266 | a field read yields the text "0" for numeric 0 and the field's own value otherwise, so it never yields numeric 0 and is truthy when the field is truthy or is 0 |
| `Cells.CellValue` | js/evolugrid.js:251-268 | `html` takes the evaluated `jsdisplay` when there is one, else the `display` function's result, else the field `display` names (zero fix-up applied); a column with none of these leaves `html` at its previous value |
| `Cells.CellFor` | js/evolugrid.js:269-271 | a cell is filled exactly when `html` is truthy, and then with that value |
| `Cells.RenderCells` | js/evolugrid.js:247-273 | one cell per column; a column with its own display depends only on the row; a column without one repeats the previous cell; the last cell shows the value carried out |
| `Cells.RenderBody` | js/evolugrid.js:241-274 | one rendered row per data row with one cell per column and the row's CSS class; a first column without display repeats the previous row's last cell |
| `Cells.RenderResponseRows` | js/evolugrid.js:371-404 | a success handler renders one row per data row, each with the row's CSS class and one cell per column; a column with its own display shows its resolved value; a first column without one is empty in the first row and repeats the previous row's last cell after it |
| `Cells.RenderBodyRowIsRenderCells` | js/evolugrid.js:241-274 | row `i` of the body is that row's cells rendered from the `html` value left by rows before it |
| `Cells.NoCarryWhenEveryColumnDisplays` | js/evolugrid.js:247-273 | when every column has a display, each cell depends only on its row and column |
| `Cells.MissingDisplayRepeatsPreviousCell` | js/evolugrid.js:255-269 | a column without a display shows the same cell as the column before it |
| `Cells.ZeroFieldShowsZero` | js/evolugrid.js:262-266 | a field holding numeric 0 shows "0" |
| `Cells.ZeroFromDisplayFunctionShowsNothing` | js/evolugrid.js:259-260 | a display function returning 0 leaves the cell empty |
| `Cells.FalsyFieldShowsNothing` | js/evolugrid.js:262-271 | an empty-string, null, undefined or false field leaves the cell empty |
| `Cells.ScriptOverridesDisplay` | js/evolugrid.js:251-256 | an evaluated `jsdisplay` decides the cell whatever `display` says |
| `Pager.PageCount` | js/evolugrid.js:289-292 | with a known count the page count is the floor of count / limit, characterised by `p*limit <= count < (p+1)*limit`; without one there is none |
| `Pager.BelowQuotient` | js/evolugrid.js:305 | `noPage < floor(count / limit)` holds exactly when page `noPage + 1` starts at or before `count` |
| `Pager.BuildPagerAsWritten` | js/evolugrid.js:276-308 | CSV trigger iff `export_csv`; label and arrows iff the count is known and at least `limit`; previous arrow iff `noPage > 0`, to `noPage-1`; next arrow iff `(noPage+1)*limit <= count`, to `noPage+1`; label "Page noPage+1 / floor(count/limit)+1" |
| `Pager.UnknownCountShowsNoNavigation` | js/evolugrid.js:289-307 | with no count there is no label and no arrow, however full the page |
| `Pager.ExactMultipleOffersEmptyPage` | js/evolugrid.js:289-306 | with 4 rows and 2 per page, page 2 of the pager offers a next arrow to a page starting past the last row and says "/ 3" |
| `Pager.PagesFor` | js/evolugrid.js:289-292 | the number of pages `m` that `count` rows fill satisfies `(m-1)*limit < count <= m*limit` |
| `Pager.BuildPager` | js/evolugrid.js:289-306 | corrected pager: shown iff the count is above `limit`; next arrow iff page `noPage+1` holds a row; the label counts the pages that hold rows |
| `Pager.PagersAgreeUnlessExactMultiple` | js/evolugrid.js:289-306 | the corrected and as-written pagers are equal exactly when the count is not a positive multiple of `limit` |
| `Render.Headers` | js/evolugrid.js:64-102 | one header cell per column with its title; sort triggers exactly on sortable columns, keyed by the column's `display` |
| `Render.CountTarget` | js/evolugrid.js:227-232 | the count goes to `countTarget`, or to `#count` when none is set |
| `Render.RefreshView` | js/evolugrid.js:222-310 | a paging response renders a table with the descriptor's classes, the header of `Render.Headers` (one cell per column with its title, sort triggers exactly on sortable columns keyed by the column's `display`), the body rows of `Cells.RenderResponseRows`, and the count into `countTarget` or `#count`; the pager is exactly `Pager.BuildPagerAsWritten`, with the previous arrow to `noPage-1` and the next to `noPage+1`: shown iff the count is known and at least `limit`, next arrow iff `(noPage+1)*limit <= count`, label "Page noPage+1 / floor(count/limit)+1" |
| `Render.CorrectedRefreshView` | js/evolugrid.js:289-306 | the same page with the corrected pager, exactly `Pager.BuildPager` (previous arrow iff `noPage > 0`, to `noPage-1`; next arrow to `noPage+1`): shown iff the count is above `limit`, next arrow iff page `noPage+1` holds a row, label counting the pages that hold rows; everything else as `RefreshView` |
| `Render.RefreshViewsDifferOnlyOnExactMultiple` | js/evolugrid.js:289-306 | the corrected page equals the page the code renders exactly when the count is not a positive multiple of `limit` |
| `Render.ScrollViewOf` | js/evolugrid.js:357-409 | a scroll response rebuilds the table (the descriptor's classes and the header of `Render.Headers`, sort triggers keyed by the column's `display`) exactly on a reset, and otherwise appends; either way the rows are those of `Cells.RenderResponseRows` |
| `Render.FirstPageExample` | js/evolugrid.js:289-306 | with 5 rows and 2 per page, page 0 reads "Page 1 / 3", has a next arrow to page 1 and no previous arrow |
| `Navigation.StartScroll` | js/evolugrid.js:345-347 | `scroll(true)` zeroes the offset and nothing else; `scroll(false)` changes nothing |
| `Navigation.Init` | js/evolugrid.js:112-174 | in scroll mode `init` zeroes the offset and clears "no more results", leaving `scrollReady` false exactly when it starts loading; it starts `scroll(true)` or `refresh(0)` when `loadOnInit` is set; the sort state is kept |
| `Navigation.OnBoundary` | js/evolugrid.js:118-130 | when not ready, nothing happens; at the bottom with no more results, only the notice is revealed; at the bottom otherwise, `scrollReady := false` and `scroll(false)` is started |
| `Navigation.OnSubmit` | js/evolugrid.js:132-165 | in scroll mode a submission zeroes the offset, clears both flags and starts `scroll(true)`; in paging mode it starts `refresh(0)` |
| `Navigation.OnSortClick` | js/evolugrid.js:71-94 | a sort click sets `sortKey` to the column's `display` and `sortOrder` to "asc"/"desc", then starts `scroll(true)` (offset 0) or `refresh(0)`; the scroll flags are untouched |
| `Navigation.CountBelow` | js/evolugrid.js:425 | JavaScript's `data.count < scrollOffset`: a known count compares as a number, `null` compares as 0, and a missing count (undefined, so NaN) is never below |
| `Navigation.OnScrollSuccess` | js/evolugrid.js:419-428 | a scroll response advances the offset by `limit`, sets ready, and sets (never clears) "no more results" when the count compares below the new offset |
| `Navigation.AddPageKeepsAligned` | js/evolugrid.js:420 | adding `limit` to a multiple of `limit` gives a multiple of `limit` |
| `Navigation.Apply` | js/evolugrid.js:333-434 | every event keeps the scroll offset a non-negative multiple of `limit` |
| `Navigation.RunStaysAligned` | js/evolugrid.js:333-434 | after any sequence of events the scroll offset is still a non-negative multiple of `limit` |
| `Navigation.InitAligns` | js/evolugrid.js:112-117 | `init` in scroll mode starts from an aligned offset |
| `Navigation.OnlySubmitClearsNoMore` | js/evolugrid.js:133-165 | among the events after `init`, only a form submission in scroll mode clears "no more results" once it is set |
| `Navigation.CountlessResponses` | js/evolugrid.js:425-428 | a response with `count: null` always ends the scroll; one with no count property never does |
| `Navigation.BoundaryGuardsAgainstDuplicates` | js/evolugrid.js:118-130 | two boundary events in a row start at most one request |
| `Navigation.SortClickLeavesGuardOpen` | js/evolugrid.js:71-94 | after a sort click in scroll mode, reaching the bottom starts a second request while the first is in flight |
| `Navigation.RequestOf` | js/evolugrid.js:215-219 | a step sends a request exactly for `refresh`/`scroll`, at offset `page * limit` or the current scroll offset |
| `Navigation.SortClickRequestsFirstRows` | js/evolugrid.js:71-94 | after a sort click the request asks for offset 0, sorted on the clicked key in the clicked order |
| `Navigation.ScrollExample` | js/evolugrid.js:112-174 | scroll mode over 3 rows with 2 per page: offsets 0, 2, 4; the second response ends the scroll |
| `Dispatch.DispatchCall` | js/evolugrid.js:437-447 | an unknown method is reported exactly for a truthy argument naming no method; `init` runs for an options object, a falsy argument or "init" |
| `Dispatch.NamesReachTheirMethods` | js/evolugrid.js:439-440 | "csvExport", "refresh" and "scroll" reach their methods, and no other name does |

## Findings

| source | as written | input that shows it | evidently intended | confidence | as-written member | corrected member |
|---|---|---|---|---|---|---|
| js/evolugrid.js:289-306 | `pageCount = Math.floor(count / limit)` is used as the index of the last page | count 4, limit 2, page 1: the label reads "Page 2 / 3" and the next arrow leads to page 2, which starts at row 4 of 4 and is empty. With count 2 and limit 2 a pager appears for a single page | the last page index is `ceil(count / limit) - 1`: the label counts only pages that hold rows, and the next arrow appears only when the next page holds a row | medium, not executed | `Pager.BuildPagerAsWritten`, `Pager.ExactMultipleOffersEmptyPage`, `Render.RefreshView` | `Pager.BuildPager`, `Render.CorrectedRefreshView` |

`Render.RefreshView` renders the pager as the code builds it. `Render.CorrectedRefreshView` is the same page with the corrected pager. `Pager.PagersAgreeUnlessExactMultiple` and `Render.RefreshViewsDifferOnlyOnExactMultiple` prove that the two differ only when the count is a positive multiple of the page size.

## Left out

- Descriptor merging (`$.extend(true, ...)` of defaults, options and the server's override) lives in jQuery and is not modelled. The merged descriptor is an input (`GridTypes.Descriptor`), and the default values are not modelled.
- DOM construction and mutation are not modelled: building the table, showing and hiding the loader, and disabling and re-enabling the form buttons. The rendered outcome is represented as values (`Render.GridView`, `Render.ScrollView`, `Pager.Pager`).
- `$.ajax`, the `error` callbacks and `console.error` are network I/O. A response is an input. Overlapping requests and the order in which responses arrive are not modelled: each transition is one step.
- `window.open` is not modelled. The window and document scroll geometry is reduced to the boolean `atBottom`.
- Evaluating `jsdisplay` with `new Function` is represented by its result, an opaque function of the row (`GridTypes.Script`). User `display` functions are opaque functions too.
- `serializeArray` and `encodeURIComponent` are parameters (`serialize`, `encode`). `CsvExport.ExportQueryRoundTrip` assumes that an encoded value holds no `&`.
- `filters.push` mutates the array that `_getFilters` returned. Repeated requests therefore grow an array that the caller or the callback keeps and reuses. The model builds a fresh sequence each time. The implicit global `filters` that `scroll` assigns is not modelled either.
- The limit is a positive integer (`GridTypes.PositiveInt`). A zero or non-numeric limit leads to floating-point `Infinity`/`NaN` arithmetic, which is not modelled.
- Numbers are integers. Fractional counts are not modelled, nor is the exponent notation JavaScript uses for integers of 10^21 and above (`JsValues.NumberToString`).
- Before `init`, the plugin's scroll variables are `undefined`. The model gives them integer and boolean values. The handlers that read them exist only after `init`.
- `Dispatch.DispatchCall` does not model names inherited from `Object.prototype` (such as "toString"), which the source's `methods[method]` would find. It also does not model the text of the `$.error` message.
- How jQuery serializes a function-valued `sort_key` (a column whose `display` is a function) is not modelled. The sort key is the marker value `FunctionRef`.
- `Pager.BuildPager`: for a negative page number the next-arrow condition is not characterised. The source's callers only pass page numbers of 0 and above.

=== FILE: cells.dfy ===
/**
 Cell resolution in the success handlers of `refresh` and `scroll`. For each
 row and column the handler sets its variable `html` — from the column's
 evaluated `jsdisplay`, its `display` function, or the row field its
 `display` names (numeric 0 rewritten to "0") — and fills the cell when
 `html` is truthy. `html` is one variable for the whole handler, so a column
 with neither `jsdisplay` nor a truthy `display` shows again whatever the
 previous cell held.
 */
module Cells {
  import opened JsValues
  import opened GridTypes

  datatype Cell = EmptyCell | Filled(html: JsValue)

  /** A body row: its CSS class (when `rowCssClass` is set) and its cells. */
  datatype RenderedRow = RenderedRow(cssClass: Option<JsValue>, cells: seq<Cell>)

  /** True when the column sets `html` itself rather than leaving the
      previous value in place. */
  predicate HasOwnDisplay(c: Column) {
    || c.jsDisplay.Compiled?
    || c.display.DisplayFn?
    || (c.display.FieldKey? && c.display.key != "")
  }

  /** A field read with the zero fix-up: numeric 0 becomes the text "0". */
  function FieldText(row: Row, key: string): (v: JsValue)
    ensures v != Num(0)
    ensures Truthy(v) <==> Truthy(Field(row, key)) || Field(row, key) == Num(0)
    ensures Field(row, key) == Num(0) ==> v == Str("0")
    ensures Field(row, key) != Num(0) ==> v == Field(row, key)
  {
    var x := Field(row, key);
    if x == Num(0) then Str("0") else x
  }

  /** The value of `html` after the column, given the value it held before. */
  function CellValue(c: Column, row: Row, carried: JsValue): (v: JsValue)
    ensures !HasOwnDisplay(c) ==> v == carried
    ensures c.jsDisplay.Compiled? ==> v == c.jsDisplay.f(row)
    ensures c.jsDisplay.NoScript? && c.display.DisplayFn? ==> v == c.display.f(row)
    ensures c.jsDisplay.NoScript? && c.display.FieldKey? && c.display.key != "" ==> v == FieldText(row, c.display.key)
  {
    match c.jsDisplay
    case Compiled(f) => f(row)
    case NoScript =>
      match c.display
      case DisplayFn(f) => f(row)
      case FieldKey(k) => if k != "" then FieldText(row, k) else carried
      case NoDisplay => carried
  }

  /** `if (html) td.html(html)`: the cell shows a truthy value and is empty otherwise. */
  function CellFor(v: JsValue): (c: Cell)
    ensures c.Filled? <==> Truthy(v)
    ensures c.Filled? ==> c.html == v
  {
    if Truthy(v) then Filled(v) else EmptyCell
  }

  /** The cells of one row, and the value `html` holds after its last column. */
  function RenderCells(cols: seq<Column>, row: Row, carried: JsValue): (r: (seq<Cell>, JsValue))
    ensures |r.0| == |cols|
    ensures |cols| == 0 ==> r.1 == carried
    ensures |cols| > 0 ==> r.0[|cols| - 1] == CellFor(r.1)
    ensures |cols| > 0 && !HasOwnDisplay(cols[0]) ==> r.0[0] == CellFor(carried)
    ensures forall j :: 0 < j < |cols| && !HasOwnDisplay(cols[j]) ==> r.0[j] == r.0[j - 1]
    ensures forall j :: 0 <= j < |cols| && HasOwnDisplay(cols[j]) ==> r.0[j] == CellFor(CellValue(cols[j], row, Undefined))
    decreases |cols|
  {
    if |cols| == 0 then ([], carried)
    else
      var v := CellValue(cols[0], row, carried);
      var rest := RenderCells(cols[1..], row, v);
      ([CellFor(v)] + rest.0, rest.1)
  }

  /** The CSS class a row gets: `row[rowCssClass]` when the option is set. */
  function RowClass(rowCssClass: string, row: Row): Option<JsValue> {
    if rowCssClass != "" then Some(Field(row, rowCssClass)) else None
  }

  /** The body rows of a response, `html` carried from row to row. */
  function RenderBody(rowCssClass: string, cols: seq<Column>, rows: seq<Row>, carried: JsValue): (r: (seq<RenderedRow>, JsValue))
    ensures |r.0| == |rows|
    ensures forall i :: 0 <= i < |rows| ==> |r.0[i].cells| == |cols|
    ensures forall i :: 0 <= i < |rows| ==> r.0[i].cssClass == RowClass(rowCssClass, rows[i])
    ensures forall i, j :: 0 <= i < |rows| && 0 <= j < |cols| && HasOwnDisplay(cols[j]) ==>
              r.0[i].cells[j] == CellFor(CellValue(cols[j], rows[i], Undefined))
    ensures |rows| > 0 && |cols| > 0 && !HasOwnDisplay(cols[0]) ==> r.0[0].cells[0] == CellFor(carried)
    ensures forall i :: 0 < i < |rows| && |cols| > 0 && !HasOwnDisplay(cols[0]) ==>
              r.0[i].cells[0] == r.0[i - 1].cells[|cols| - 1]
    decreases |rows|
  {
    if |rows| == 0 then ([], carried)
    else
      var first := RenderCells(cols, rows[0], carried);
      var rest := RenderBody(rowCssClass, cols, rows[1..], first.1);
      ([RenderedRow(RowClass(rowCssClass, rows[0]), first.0)] + rest.0, rest.1)
  }

  /** The rows of one success handler: `html` starts out undefined. */
  function RenderResponseRows(rowCssClass: string, cols: seq<Column>, rows: seq<Row>): (r: seq<RenderedRow>)
    ensures |r| == |rows|
    ensures forall i :: 0 <= i < |rows| ==> |r[i].cells| == |cols|
    ensures forall i :: 0 <= i < |rows| ==> r[i].cssClass == RowClass(rowCssClass, rows[i])
    ensures forall i, j :: 0 <= i < |rows| && 0 <= j < |cols| && HasOwnDisplay(cols[j]) ==>
              r[i].cells[j] == CellFor(CellValue(cols[j], rows[i], Undefined))
    ensures |rows| > 0 && |cols| > 0 && !HasOwnDisplay(cols[0]) ==> r[0].cells[0] == EmptyCell
    ensures forall i :: 0 < i < |rows| && |cols| > 0 && !HasOwnDisplay(cols[0]) ==>
              r[i].cells[0] == r[i - 1].cells[|cols| - 1]
  {
    RenderBody(rowCssClass, cols, rows, Undefined).0
  }

  /** When every column has its own display, each cell depends only on its
      row and column. */
  lemma NoCarryWhenEveryColumnDisplays(rowCssClass: string, cols: seq<Column>, rows: seq<Row>, i: int, j: int)
    requires forall k :: 0 <= k < |cols| ==> HasOwnDisplay(cols[k])
    requires 0 <= i < |rows| && 0 <= j < |cols|
    ensures RenderResponseRows(rowCssClass, cols, rows)[i].cells[j] == CellFor(CellValue(cols[j], rows[i], Undefined))
  {
  }

  /** A column with no display of its own repeats the cell before it. */
  lemma MissingDisplayRepeatsPreviousCell(rowCssClass: string, cols: seq<Column>, rows: seq<Row>, i: int, j: int)
    requires 0 <= i < |rows| && 0 < j < |cols| && !HasOwnDisplay(cols[j])
    ensures RenderResponseRows(rowCssClass, cols, rows)[i].cells[j] == RenderResponseRows(rowCssClass, cols, rows)[i].cells[j - 1]
  {
    var body := RenderBody(rowCssClass, cols, rows, Undefined).0;
    assert body[i].cells == RenderCells(cols, rows[i], RenderBodyCarry(rowCssClass, cols, rows, i)).0 by {
      RenderBodyRowIsRenderCells(rowCssClass, cols, rows, Undefined, i);
    }
  }

  /** The value `html` holds when row `i` starts. */
  function RenderBodyCarry(rowCssClass: string, cols: seq<Column>, rows: seq<Row>, i: int): JsValue
    requires 0 <= i <= |rows|
  {
    RenderBody(rowCssClass, cols, rows[..i], Undefined).1
  }

  lemma {:induction false} RenderBodyRowIsRenderCells(rowCssClass: string, cols: seq<Column>, rows: seq<Row>, carried: JsValue, i: int)
    requires 0 <= i < |rows|
    ensures RenderBody(rowCssClass, cols, rows, carried).0[i].cells
         == RenderCells(cols, rows[i], RenderBody(rowCssClass, cols, rows[..i], carried).1).0
    decreases i
  {
    if i > 0 {
      var first := RenderCells(cols, rows[0], carried);
      RenderBodyRowIsRenderCells(rowCssClass, cols, rows[1..], first.1, i - 1);
      assert rows[1..][..i - 1] == rows[..i][1..];
      assert rows[..i][0] == rows[0];
    } else {
      assert rows[..0] == [];
    }
  }

  /** A field holding the number 0 shows "0". */
  lemma ZeroFieldShowsZero(title: string, key: string, sortable: bool, row: Row, carried: JsValue)
    requires key != "" && Field(row, key) == Num(0)
    ensures RenderCells([Column(title, FieldKey(key), NoScript, sortable)], row, carried).0 == [Filled(Str("0"))]
  {
  }

  /** A display function returning 0 leaves the cell empty: the fix-up only
      applies to field reads. */
  lemma ZeroFromDisplayFunctionShowsNothing(title: string, f: Row -> JsValue, sortable: bool, row: Row, carried: JsValue)
    requires f(row) == Num(0)
    ensures RenderCells([Column(title, DisplayFn(f), NoScript, sortable)], row, carried).0 == [EmptyCell]
  {
  }

  /** Any other falsy field (empty text, null, undefined, false) leaves the cell empty. */
  lemma FalsyFieldShowsNothing(title: string, key: string, sortable: bool, row: Row, carried: JsValue)
    requires key != "" && !Truthy(Field(row, key)) && Field(row, key) != Num(0)
    ensures RenderCells([Column(title, FieldKey(key), NoScript, sortable)], row, carried).0 == [EmptyCell]
  {
  }

  /** An evaluated `jsdisplay` takes precedence over `display`. */
  lemma ScriptOverridesDisplay(c: Column, row: Row, carried: JsValue)
    requires c.jsDisplay.Compiled?
    ensures RenderCells([c], row, carried).0 == [CellFor(c.jsDisplay.f(row))]
  {
  }
}

=== FILE: csv_export.dfy ===
/**
 The CSV export URL (`csvExport`): the endpoint URL, `?` or `&`, one
 `name=value&` per filter with the value URL-encoded, then `output=csv`.
 Paging and sorting parameters are never part of it.
 */
module CsvExport {
  import opened JsValues
  import opened GridTypes
  import opened Filters

  /** `?` when the URL has no query string yet, `&` when it has one. */
  function Separator(url: string): char {
    if '?' in url then '&' else '?'
  }

  /** One filter as the URL writes it; names are not encoded, values are. */
  function Pair(p: Param, encode: JsValue -> string): string {
    p.name + "=" + encode(p.value)
  }

  /** Every filter, in order, each followed by `&`. */
  function EncodedFilters(filters: seq<Param>, encode: JsValue -> string): string
    decreases |filters|
  {
    if |filters| == 0 then ""
    else Pair(filters[0], encode) + "&" + EncodedFilters(filters[1..], encode)
  }

  /** The export URL for the given filters; `encode` stands for
      `encodeURIComponent`. */
  function ExportUrl(url: string, filters: seq<Param>, encode: JsValue -> string): (r: string)
    ensures |r| > |url| && r[..|url|] == url
    ensures r[|url|] == '?' <==> '?' !in url
    ensures r[|url|] == '&' <==> '?' in url
    ensures |r| >= |url| + 11 && r[|r| - 10..] == "output=csv"
    ensures |filters| == 0 ==> r == url + [Separator(url)] + "output=csv"
  {
    url + [Separator(url)] + EncodedFilters(filters, encode) + "output=csv"
  }

  /** `csvExport(filters)`: the URL opened for the grid's current filters. */
  function CsvExportUrl(d: Descriptor, explicit: Option<seq<Param>>, serialize: string -> seq<Param>, encode: JsValue -> string): (r: string)
    ensures |r| > |d.url| && r[..|d.url|] == d.url
    ensures r[|d.url|] == Separator(d.url)
    ensures |r| >= |d.url| + 11 && r[|r| - 10..] == "output=csv"
    ensures var filters := GetFilters(d, explicit, serialize);
            (forall v :: NoAmpersand(encode(v))) && (forall i :: 0 <= i < |filters| ==> NoAmpersand(filters[i].name)) ==>
              SplitOn(r[|d.url| + 1..], '&') == seq(|filters|, i requires 0 <= i < |filters| => Pair(filters[i], encode)) + ["output=csv"]
  {
    var filters := GetFilters(d, explicit, serialize);
    ExportUrlShapeWhenUnambiguous(d.url, filters, encode);
    ExportUrl(d.url, filters, encode)
  }

  /** The export of `/items` filtered on `q = "a b"`. */
  lemma ExportExample(encode: JsValue -> string)
    requires encode(Str("a b")) == "a%20b"
    ensures ExportUrl("/items", [Param("q", Str("a b"))], encode) == "/items?q=a%20b&output=csv"
  {
    assert '?' !in "/items";
    assert [Param("q", Str("a b"))][1..] == [];
  }

  /** `s` cut at every `sep`, as a reader of the query string splits it. */
  function SplitOn(s: string, sep: char): (r: seq<string>)
    ensures |r| >= 1
    decreases |s|
  {
    if |s| == 0 then [""]
    else
      var rest := SplitOn(s[1..], sep);
      if s[0] == sep then [""] + rest else [[s[0]] + rest[0]] + rest[1..]
  }

  lemma {:induction false} SplitWithoutSeparator(a: string, sep: char)
    requires sep !in a
    ensures SplitOn(a, sep) == [a]
    decreases |a|
  {
    if |a| > 0 {
      SplitWithoutSeparator(a[1..], sep);
      assert [a[0]] + a[1..] == a;
    }
  }

  lemma {:induction false} SplitAtSeparator(a: string, b: string, sep: char)
    requires sep !in a
    ensures SplitOn(a + [sep] + b, sep) == [a] + SplitOn(b, sep)
    decreases |a|
  {
    if |a| == 0 {
      assert a + [sep] + b == [sep] + b;
      assert ([sep] + b)[1..] == b;
    } else {
      assert (a + [sep] + b)[1..] == a[1..] + [sep] + b;
      SplitAtSeparator(a[1..], b, sep);
      assert (a + [sep] + b)[0] == a[0];
      assert [a[0]] + a[1..] == a;
    }
  }

  predicate NoAmpersand(s: string) {
    '&' !in s
  }

  /** The query of the export URL, split at `&`, gives back each filter's
      `name=value` in order and then `output=csv` — provided no filter name
      holds a `&` (values are encoded, and an encoded value holds none). */
  lemma {:induction false} ExportQueryRoundTrip(filters: seq<Param>, encode: JsValue -> string)
    requires forall v :: NoAmpersand(encode(v))
    requires forall i :: 0 <= i < |filters| ==> NoAmpersand(filters[i].name)
    ensures SplitOn(EncodedFilters(filters, encode) + "output=csv", '&')
         == seq(|filters|, i requires 0 <= i < |filters| => Pair(filters[i], encode)) + ["output=csv"]
    decreases |filters|
  {
    var pairs := seq(|filters|, i requires 0 <= i < |filters| => Pair(filters[i], encode));
    if |filters| == 0 {
      assert EncodedFilters(filters, encode) + "output=csv" == "output=csv";
      SplitWithoutSeparator("output=csv", '&');
    } else {
      var head := Pair(filters[0], encode);
      assert NoAmpersand(encode(filters[0].value));
      assert head == filters[0].name + "=" + encode(filters[0].value);
      assert '&' !in head;
      var rest := EncodedFilters(filters[1..], encode) + "output=csv";
      assert EncodedFilters(filters, encode) + "output=csv" == head + ['&'] + rest;
      SplitAtSeparator(head, rest, '&');
      ExportQueryRoundTrip(filters[1..], encode);
      var restPairs := seq(|filters[1..]|, i requires 0 <= i < |filters[1..]| => Pair(filters[1..][i], encode));
      assert pairs == [head] + restPairs;
    }
  }

  /** The whole URL: the endpoint, the separator, then the query above. */
  lemma ExportUrlShape(url: string, filters: seq<Param>, encode: JsValue -> string)
    requires forall v :: NoAmpersand(encode(v))
    requires forall i :: 0 <= i < |filters| ==> NoAmpersand(filters[i].name)
    ensures var r := ExportUrl(url, filters, encode);
            SplitOn(r[|url| + 1..], '&') == seq(|filters|, i requires 0 <= i < |filters| => Pair(filters[i], encode)) + ["output=csv"]
  {
    var r := ExportUrl(url, filters, encode);
    assert r[|url| + 1..] == EncodedFilters(filters, encode) + "output=csv";
    ExportQueryRoundTrip(filters, encode);
  }

  /** `ExportUrlShape` for any filters, stated under its assumptions. */
  lemma ExportUrlShapeWhenUnambiguous(url: string, filters: seq<Param>, encode: JsValue -> string)
    ensures (forall v :: NoAmpersand(encode(v))) && (forall i :: 0 <= i < |filters| ==> NoAmpersand(filters[i].name)) ==>
              var r := ExportUrl(url, filters, encode);
              SplitOn(r[|url| + 1..], '&') == seq(|filters|, i requires 0 <= i < |filters| => Pair(filters[i], encode)) + ["output=csv"]
  {
    if (forall v :: NoAmpersand(encode(v))) && (forall i :: 0 <= i < |filters| ==> NoAmpersand(filters[i].name)) {
      ExportUrlShape(url, filters, encode);
    }
  }
}

=== FILE: dispatch.dfy ===
/**
 `$.fn.evolugrid(method, ...)`: the plugin's entry point picks the method
 named by its first argument, falls back to `init` for an options object or
 a falsy argument, and reports an unknown method otherwise.
 */
module Dispatch {
  import opened JsValues

  datatype Method = InitMethod | CsvExportMethod | RefreshMethod | ScrollMethod

  /** The first argument: an options object, or any other value. */
  datatype Argument = OptionsObject | Value(v: JsValue)

  datatype Dispatched = Call(m: Method) | NoSuchMethod(arg: JsValue)

  /** The methods the plugin defines, by name. */
  function LookupMethod(name: string): Option<Method> {
    if name == "init" then Some(InitMethod)
    else if name == "csvExport" then Some(CsvExportMethod)
    else if name == "refresh" then Some(RefreshMethod)
    else if name == "scroll" then Some(ScrollMethod)
    else None
  }

  /** `methods[method]` for a value used as a property name. Only strings
      can name one of the four methods; `undefined`, `null`, booleans and
      numbers become texts that name none. */
  function MethodFor(v: JsValue): Option<Method> {
    if v.Str? then LookupMethod(v.s) else None
  }

  function DispatchCall(arg: Argument): (r: Dispatched)
    ensures r.NoSuchMethod? <==> arg.Value? && Truthy(arg.v) && MethodFor(arg.v).None?
    ensures r.NoSuchMethod? ==> r.arg == arg.v
    ensures r == Call(InitMethod) <==> arg.OptionsObject? || !Truthy(arg.v) || arg.v == Str("init")
  {
    match arg
    case OptionsObject => Call(InitMethod)
    case Value(v) =>
      if MethodFor(v).Some? then Call(MethodFor(v).value)
      else if !Truthy(v) then Call(InitMethod)
      else NoSuchMethod(v)
  }

  /** Each method name reaches its method, and only that name does. */
  lemma NamesReachTheirMethods(name: string, m: Method)
    ensures (DispatchCall(Value(Str(name))) == Call(m) && m != InitMethod) <==>
              ((name == "csvExport" && m == CsvExportMethod)
               || (name == "refresh" && m == RefreshMethod)
               || (name == "scroll" && m == ScrollMethod))
  {
  }
}

=== FILE: filters.dfy ===
/**
 Filter resolution (`_getFilters`): the filters of a request come from exactly
 one source, taken in precedence order — filters passed by the caller, else
 the filter callback's result, else the serialized filter form, else none.
 */
module Filters {
  import opened JsValues
  import opened GridTypes

  /** The source `_getFilters` takes the filters from. */
  datatype Source = Explicit | Callback | Form | NoSource

  function SourceOf(d: Descriptor, explicit: Option<seq<Param>>): Source {
    if explicit.Some? then Explicit
    else if d.filterCallback.Some? then Callback
    else if d.filterForm != "" then Form
    else NoSource
  }

  /** The filters of a request. `explicit` is what the caller passed (any
      array is truthy, an empty one included); `serialize` stands for the
      form's `serializeArray`, applied to the form selector. */
  function GetFilters(d: Descriptor, explicit: Option<seq<Param>>, serialize: string -> seq<Param>): (r: seq<Param>)
    ensures SourceOf(d, explicit) == Explicit ==> r == explicit.value
    ensures SourceOf(d, explicit) == Callback ==> r == d.filterCallback.value
    ensures SourceOf(d, explicit) == Form ==> r == serialize(d.filterForm)
    ensures SourceOf(d, explicit) == NoSource ==> r == []
  {
    if explicit.Some? then explicit.value
    else if d.filterCallback.Some? then d.filterCallback.value
    else if d.filterForm != "" then serialize(d.filterForm)
    else []
  }

  /** Reference definition of a precedence order: the first source present,
      or nothing when none is. */
  function FirstPresent(sources: seq<Option<seq<Param>>>): (r: seq<Param>)
    ensures (forall i :: 0 <= i < |sources| ==> sources[i].None?) ==> r == []
    ensures forall i :: 0 <= i < |sources| && sources[i].Some? && (forall j :: 0 <= j < i ==> sources[j].None?) ==>
              r == sources[i].value
    decreases |sources|
  {
    if |sources| == 0 then []
    else if sources[0].Some? then sources[0].value
    else
      var rest := FirstPresent(sources[1..]);
      assert forall i :: 1 <= i < |sources| ==> sources[1..][i - 1] == sources[i];
      rest
  }

  /** The filter form as a source: present when a form selector is set. */
  function FormSource(d: Descriptor, serialize: string -> seq<Param>): Option<seq<Param>> {
    if d.filterForm != "" then Some(serialize(d.filterForm)) else None
  }

  /** Explicit filters, then the callback, then the form: the first present wins. */
  lemma GetFiltersIsFirstPresent(d: Descriptor, explicit: Option<seq<Param>>, serialize: string -> seq<Param>)
    ensures GetFilters(d, explicit, serialize) == FirstPresent([explicit, d.filterCallback, FormSource(d, serialize)])
  {
    var sources := [explicit, d.filterCallback, FormSource(d, serialize)];
    assert sources[1..] == [d.filterCallback, FormSource(d, serialize)];
    assert sources[1..][1..] == [FormSource(d, serialize)];
    assert sources[1..][1..][1..] == [];
    var form := FirstPresent(sources[1..][1..]);
    assert form == if d.filterForm != "" then serialize(d.filterForm) else [];
    assert FirstPresent(sources[1..]) == if d.filterCallback.Some? then d.filterCallback.value else form;
  }

  /** Only the chosen source is consulted: two resolutions that choose the
      same source and agree on its value return the same filters, whatever
      the other sources hold. */
  lemma OnlyChosenSourceConsulted(
    d1: Descriptor, e1: Option<seq<Param>>, s1: string -> seq<Param>,
    d2: Descriptor, e2: Option<seq<Param>>, s2: string -> seq<Param>)
    requires SourceOf(d1, e1) == SourceOf(d2, e2)
    requires SourceOf(d1, e1) == Explicit ==> e1 == e2
    requires SourceOf(d1, e1) == Callback ==> d1.filterCallback == d2.filterCallback
    requires SourceOf(d1, e1) == Form ==> s1(d1.filterForm) == s2(d2.filterForm)
    ensures GetFilters(d1, e1, s1) == GetFilters(d2, e2, s2)
  {
  }

  /** The form is serialized only when neither explicit filters nor a
      callback are there. */
  lemma FormReadOnlyAsLastResort(d: Descriptor, explicit: Option<seq<Param>>, s1: string -> seq<Param>, s2: string -> seq<Param>)
    requires GetFilters(d, explicit, s1) != GetFilters(d, explicit, s2)
    ensures explicit.None? && d.filterCallback.None? && d.filterForm != ""
  {
  }
}

=== FILE: grid_types.dfy ===
/**
 The configuration and the server response of an evolugrid: the descriptor
 (defaults, instance options and the server's override already merged), its
 columns, the query parameters and the response payload.
 */
module GridTypes {
  import opened JsValues

  /** One query parameter `{name, value}`, as the filter form's
      serialization and the filter callback produce them. */
  datatype Param = Param(name: string, value: JsValue)

  /** A column's `display` property: absent, the key of a row field, or a
      function of the row. */
  datatype Display =
    | NoDisplay
    | FieldKey(key: string)
    | DisplayFn(f: Row -> JsValue)

  /** A column's `jsdisplay` text once evaluated into a function of the row;
      `NoScript` when the text is absent or empty. */
  datatype Script = NoScript | Compiled(f: Row -> JsValue)

  datatype Column = Column(title: string, display: Display, jsDisplay: Script, sortable: bool)

  type PositiveInt = x: int | x > 0 witness 1

  /** The descriptor. Empty strings stand for absent selectors and keys,
      which the source tests by truthiness. `filterCallback` holds what the
      callback returns when it is called. */
  datatype Descriptor = Descriptor(
    url: string,
    tableClasses: string,
    limit: PositiveInt,
    pagerId: string,
    columns: seq<Column>,
    exportCsv: bool,
    loadOnInit: bool,
    rowCssClass: string,
    infiniteScroll: bool,
    countTarget: string,
    filterForm: string,
    filterFormSubmitButton: string,
    filterCallback: Option<seq<Param>>)

  /** The response's `count`: a number, `null`, or no property at all. */
  datatype Count = Known(n: int) | NullCount | MissingCount

  datatype Response = Response(count: Count, data: seq<Row>)
}

=== FILE: js_values.dfy ===
/**
 JavaScript values as the grid meets them: filter values, row fields, the
 results of display functions. Numbers are integers; the conversions the grid
 relies on (truthiness, `row[key]`, number-to-text) are written out here.
 */
module JsValues {

  datatype Option<+T> = None | Some(value: T)

  /** The JavaScript values the grid handles. `FunctionRef` is a function
      object (a column's `display` callback used as a sort key, say). */
  datatype JsValue =
    | Undefined
    | Null
    | Bool(b: bool)
    | Num(n: int)
    | Str(s: string)
    | FunctionRef

  /** JavaScript's ToBoolean: the test `if (v)` makes. */
  predicate Truthy(v: JsValue) {
    match v
    case Undefined => false
    case Null => false
    case Bool(b) => b
    case Num(n) => n != 0
    case Str(s) => s != ""
    case FunctionRef => true
  }

  /** A data row of the server's response, a JSON object. */
  type Row = map<string, JsValue>

  /** `row[key]`: a property the row does not have reads as undefined. */
  function Field(row: Row, key: string): JsValue {
    if key in row then row[key] else Undefined
  }

  predicate IsDigit(c: char) {
    '0' <= c <= '9'
  }

  predicate AllDigits(s: string) {
    forall i :: 0 <= i < |s| ==> IsDigit(s[i])
  }

  function DigitChar(d: int): (c: char)
    requires 0 <= d <= 9
    ensures IsDigit(c)
    ensures c == '0' <==> d == 0
  {
    ('0' as int + d) as char
  }

  function DigitValue(c: char): (d: int)
    requires IsDigit(c)
    ensures 0 <= d <= 9
  {
    c as int - '0' as int
  }

  /** The decimal text of a non-negative integer, without leading zeros,
      as JavaScript's number-to-string conversion writes it. */
  function NatToDecimal(n: nat): (r: string)
    ensures 1 <= |r|
    ensures AllDigits(r)
    ensures r[0] == '0' ==> n == 0
    decreases n
  {
    if n < 10 then [DigitChar(n)] else NatToDecimal(n / 10) + [DigitChar(n % 10)]
  }

  /** The number a string of decimal digits denotes. */
  function DecimalValue(s: string): nat
    requires AllDigits(s)
    decreases |s|
  {
    if |s| == 0 then 0 else 10 * DecimalValue(s[..|s| - 1]) + DigitValue(s[|s| - 1])
  }

  lemma {:induction false} DecimalRoundTrip(n: nat)
    ensures DecimalValue(NatToDecimal(n)) == n
    decreases n
  {
    if n >= 10 {
      DecimalRoundTrip(n / 10);
      var s := NatToDecimal(n);
      assert s[..|s| - 1] == NatToDecimal(n / 10);
      assert DigitValue(s[|s| - 1]) == n % 10;
    }
  }

  /** String concatenation of an integer (`"Page " + (noPage + 1)`). */
  function NumberToString(n: int): string {
    if n < 0 then "-" + NatToDecimal(-n) else NatToDecimal(n)
  }

  /** Reads back the text of an integer; None for anything else. */
  function ParseNumber(s: string): Option<int> {
    if 2 <= |s| && s[0] == '-' && AllDigits(s[1..]) then var v: int := DecimalValue(s[1..]); Some(-v)
    else if 1 <= |s| && AllDigits(s) then Some(DecimalValue(s))
    else None
  }

  lemma NumberRoundTrip(n: int)
    ensures ParseNumber(NumberToString(n)) == Some(n)
  {
    if n < 0 {
      var s := NumberToString(n);
      assert s == "-" + NatToDecimal(-n);
      assert s[1..] == NatToDecimal(-n);
      DecimalRoundTrip(-n);
    } else {
      DecimalRoundTrip(n);
    }
  }

  /** Different page numbers are written differently. */
  lemma NumberToStringInjective(a: int, b: int)
    requires NumberToString(a) == NumberToString(b)
    ensures a == b
  {
    NumberRoundTrip(a);
    NumberRoundTrip(b);
  }
}

=== FILE: navigation.dfy ===
/**
 The navigation state and its transitions: sorting, and the infinite-scroll
 controller (`scrollOffset`, `scrollReady`, `scrollNoMoreResults`) driven by
 `init`, the window's scroll handler, the filter form's submission, sort
 clicks, `scroll(init)` and the scroll request's success handler. The state
 is one record for the whole page, as the plugin keeps it in variables of
 its closure rather than per grid.
 */
module Navigation {
  import opened JsValues
  import opened GridTypes
  import opened Requests

  datatype SortOrder = Asc | Desc

  function OrderValue(o: SortOrder): JsValue {
    match o
    case Asc => Str("asc")
    case Desc => Str("desc")
  }

  /** `sortKey`, `sortOrder`, `scrollOffset`, `scrollReady` and
      `scrollNoMoreResults`. */
  datatype Nav = Nav(sortKey: JsValue, sortOrder: JsValue, offset: int, ready: bool, noMore: bool)

  /** What a transition asks the plugin to do: call `refresh(page)` or
      `scroll(reset)`, or reveal the "No more results" notice. */
  datatype Command = Idle | Refresh(page: int) | Scroll(reset: bool) | RevealNoResults

  datatype Step = Step(nav: Nav, command: Command)

  /** The synchronous part of `scroll(init)`: a reset zeroes the offset before
      the request is built; nothing else changes until the response. */
  function StartScroll(nav: Nav, init: bool): (n: Nav)
    ensures init ==> n.offset == 0
    ensures !init ==> n == nav
    ensures n.(offset := nav.offset) == nav
  {
    if init then nav.(offset := 0) else nav
  }

  /** The state once the command has been started. */
  function Issue(nav: Nav, cmd: Command): Step {
    match cmd
    case Scroll(reset) => Step(StartScroll(nav, reset), cmd)
    case _ => Step(nav, cmd)
  }

  /** `init`: arms the scroll state in infinite-scroll mode, then loads the
      first rows when `loadOnInit` is set. Sorting is left as it was. */
  function Init(d: Descriptor, nav: Nav): (s: Step)
    ensures d.infiniteScroll ==> s.nav.offset == 0 && !s.nav.noMore && (s.nav.ready <==> !d.loadOnInit)
    ensures !d.infiniteScroll ==> s.nav == nav
    ensures s.nav.sortKey == nav.sortKey && s.nav.sortOrder == nav.sortOrder
    ensures !d.loadOnInit ==> s.command == Idle
    ensures d.loadOnInit && d.infiniteScroll ==> s.command == Scroll(true)
    ensures d.loadOnInit && !d.infiniteScroll ==> s.command == Refresh(0)
  {
    var armed := if d.infiniteScroll then nav.(offset := 0, ready := true, noMore := false) else nav;
    if !d.loadOnInit then Step(armed, Idle)
    else if d.infiniteScroll then Issue(armed.(ready := false), Scroll(true))
    else Issue(armed, Refresh(0))
  }

  /** The window's scroll handler; `atBottom` stands for the test that the
      viewport has reached the end of the document. */
  function OnBoundary(nav: Nav, atBottom: bool): (s: Step)
    ensures !nav.ready ==> s == Step(nav, Idle)
    ensures s.command.Scroll? <==> nav.ready && atBottom && !nav.noMore
    ensures s.command.RevealNoResults? <==> nav.ready && atBottom && nav.noMore
    ensures s.command.Scroll? ==> !s.command.reset && s.nav == nav.(ready := false)
    ensures !s.command.Scroll? ==> s.nav == nav
    ensures !s.command.Refresh?
  {
    if !nav.ready then Step(nav, Idle)
    else if atBottom then
      if nav.noMore then Step(nav, RevealNoResults)
      else Issue(nav.(ready := false), Scroll(false))
    else Step(nav, Idle)
  }

  /** Submitting the filter form (or clicking its submit button). */
  function OnSubmit(d: Descriptor, nav: Nav): (s: Step)
    ensures d.infiniteScroll ==> s == Step(nav.(offset := 0, ready := false, noMore := false), Scroll(true))
    ensures !d.infiniteScroll ==> s == Step(nav, Refresh(0))
  {
    if d.infiniteScroll then Issue(nav.(offset := 0, noMore := false, ready := false), Scroll(true))
    else Issue(nav, Refresh(0))
  }

  /** A click on a column's "up" or "down" trigger; `key` is the column's
      `display` and `d` the descriptor the header was built from. */
  function OnSortClick(d: Descriptor, nav: Nav, key: JsValue, order: SortOrder): (s: Step)
    ensures s.nav.sortKey == key && s.nav.sortOrder == OrderValue(order)
    ensures s.nav.ready == nav.ready && s.nav.noMore == nav.noMore
    ensures d.infiniteScroll ==> s.command == Scroll(true) && s.nav.offset == 0
    ensures !d.infiniteScroll ==> s.command == Refresh(0) && s.nav.offset == nav.offset
  {
    var sorted := nav.(sortKey := key, sortOrder := OrderValue(order));
    if d.infiniteScroll then Issue(sorted, Scroll(true)) else Issue(sorted, Refresh(0))
  }

  /** `data.count < scrollOffset` in JavaScript: `null` compares as 0, a
      missing count (undefined) compares false. */
  function CountBelow(count: Count, offset: int): (b: bool)
    ensures count.Known? ==> (b <==> count.n < offset)
    ensures count.NullCount? ==> (b <==> offset > 0)
    ensures count.MissingCount? ==> !b
  {
    match count
    case Known(n) => n < offset
    case NullCount => 0 < offset
    case MissingCount => false
  }

  /** The scroll request's success handler; `d` is the grid's stored
      descriptor, not the one merged with the response. */
  function OnScrollSuccess(d: Descriptor, nav: Nav, count: Count): (n: Nav)
    ensures n.offset == nav.offset + d.limit
    ensures n.ready
    ensures n.noMore <==> nav.noMore || CountBelow(count, n.offset)
    ensures n.sortKey == nav.sortKey && n.sortOrder == nav.sortOrder
  {
    var advanced := nav.(offset := nav.offset + d.limit, ready := true);
    if CountBelow(count, advanced.offset) then advanced.(noMore := true) else advanced
  }

  /** Everything that moves the navigation state. `CallScroll` and
      `CallRefresh` are the public methods called by the host page. This is
      an over-approximation: the page only delivers `Boundary` when
      `infiniteScroll` is set and `Submit` when a filter form is configured,
      but the invariants below are proved for every event in every mode. */
  datatype Event =
    | Boundary(atBottom: bool)
    | Submit
    | SortClick(key: JsValue, order: SortOrder)
    | ScrollSuccess(count: Count)
    | CallScroll(init: bool)
    | CallRefresh(page: int)

  /** The scroll offset is a whole number of pages. */
  predicate Aligned(d: Descriptor, nav: Nav) {
    nav.offset >= 0 && nav.offset % d.limit == 0
  }

  lemma MultipleSign(m: int, l: PositiveInt)
    ensures m >= 1 ==> m * l >= l
    ensures m <= -1 ==> m * l + l <= 0
  {
    if m >= 1 {
      assert m * l == (m - 1) * l + l;
    } else if m <= -1 {
      assert m * l == (m + 1) * l - l;
    }
  }

  /** A multiple of `l` that lies in `[0, l)` is 0. */
  lemma SmallMultipleIsZero(m: int, l: PositiveInt)
    requires 0 <= m * l < l
    ensures m == 0
  {
    MultipleSign(m, l);
  }

  lemma AddPageKeepsAligned(o: int, l: PositiveInt)
    ensures o % l == 0 ==> (o + l) % l == 0
  {
    if o % l == 0 {
      var k := o / l;
      assert o == k * l;
      var q := (o + l) / l;
      var r := (o + l) % l;
      assert o + l == q * l + r;
      assert r == (k + 1 - q) * l;
      SmallMultipleIsZero(k + 1 - q, l);
    }
  }

  function Apply(d: Descriptor, nav: Nav, e: Event): (s: Step)
    ensures Aligned(d, nav) ==> Aligned(d, s.nav)
  {
    match e
    case Boundary(atBottom) => OnBoundary(nav, atBottom)
    case Submit => OnSubmit(d, nav)
    case SortClick(key, order) => OnSortClick(d, nav, key, order)
    case ScrollSuccess(count) =>
      AddPageKeepsAligned(nav.offset, d.limit);
      Step(OnScrollSuccess(d, nav, count), Idle)
    case CallScroll(init) => Issue(nav, Scroll(init))
    case CallRefresh(page) => Issue(nav, Refresh(page))
  }

  function Run(d: Descriptor, nav: Nav, events: seq<Event>): Nav
    decreases |events|
  {
    if |events| == 0 then nav else Run(d, Apply(d, nav, events[0]).nav, events[1..])
  }

  /** Once `init` has run, the scroll offset stays a non-negative multiple of
      the page size whatever happens next. */
  lemma {:induction false} RunStaysAligned(d: Descriptor, nav: Nav, events: seq<Event>)
    requires Aligned(d, nav)
    ensures Aligned(d, Run(d, nav, events))
    decreases |events|
  {
    if |events| > 0 {
      RunStaysAligned(d, Apply(d, nav, events[0]).nav, events[1..]);
    }
  }

  lemma InitAligns(d: Descriptor, nav: Nav)
    requires d.infiniteScroll
    ensures Aligned(d, Init(d, nav).nav)
  {
  }

  /** Among the events after `init`, only a form submission clears
      `scrollNoMoreResults` once it is set:
      not a reset by `scroll(true)`, not a sort click, not a response. */
  lemma OnlySubmitClearsNoMore(d: Descriptor, nav: Nav, e: Event)
    requires nav.noMore && !Apply(d, nav, e).nav.noMore
    ensures e.Submit? && d.infiniteScroll
  {
  }

  /** A response without a count property never ends the scroll; one with
      `count: null` always does. */
  lemma CountlessResponses(d: Descriptor, nav: Nav)
    requires nav.offset >= 0
    ensures OnScrollSuccess(d, nav, NullCount).noMore
    ensures OnScrollSuccess(d, nav, MissingCount).noMore == nav.noMore
  {
  }

  /** Two boundary events in a row start at most one request. */
  lemma BoundaryGuardsAgainstDuplicates(nav: Nav, first: bool, second: bool)
    ensures !(OnBoundary(nav, first).command.Scroll? && OnBoundary(OnBoundary(nav, first).nav, second).command.Scroll?)
  {
  }

  /** A sort click in infinite-scroll mode starts `scroll(true)` without
      clearing `scrollReady` (init and submission do clear it), so reaching
      the bottom while that request is out starts a second one. */
  lemma SortClickLeavesGuardOpen(d: Descriptor, nav: Nav, key: JsValue, order: SortOrder)
    requires d.infiniteScroll && nav.ready && !nav.noMore
    ensures var s := OnSortClick(d, nav, key, order);
            s.command == Scroll(true) && OnBoundary(s.nav, true).command == Scroll(false)
  {
  }

  /** The request a step sends, if any: `refresh(page)` without explicit
      filters (as the pager arrows call it) or `scroll(reset)`. */
  function RequestOf(d: Descriptor, s: Step, serialize: string -> seq<Param>): (r: Option<seq<Param>>)
    ensures r.Some? <==> s.command.Refresh? || s.command.Scroll?
    ensures s.command.Scroll? ==> LastValue(r.value, "offset") == Some(Num(s.nav.offset))
    ensures s.command.Refresh? ==> LastValue(r.value, "offset") == Some(Num(s.command.page * d.limit))
  {
    match s.command
    case Refresh(page) => Some(RefreshParams(d, s.nav.sortKey, s.nav.sortOrder, page, None, serialize))
    case Scroll(_) => Some(ScrollParams(d, s.nav.sortKey, s.nav.sortOrder, s.nav.offset, serialize))
    case _ => None
  }

  /** After a sort click the grid asks for the first rows, sorted by the
      clicked column in the clicked direction. */
  lemma SortClickRequestsFirstRows(d: Descriptor, nav: Nav, key: JsValue, order: SortOrder, serialize: string -> seq<Param>)
    ensures var r := RequestOf(d, OnSortClick(d, nav, key, order), serialize);
            && r.Some?
            && LastValue(r.value, "offset") == Some(Num(0))
            && LastValue(r.value, "sort_key") == Some(key)
            && LastValue(r.value, "sort_order") == Some(OrderValue(order))
  {
    var s := OnSortClick(d, nav, key, order);
    if d.infiniteScroll {
      assert s.command == Scroll(true) && s.nav.offset == 0;
    } else {
      assert s.command == Refresh(0) && 0 * d.limit == 0;
    }
  }

  /** Infinite scroll with 2 rows per page over 3 rows: the first response
      moves the offset to 2, the second to 4 and ends the scroll. */
  lemma ScrollExample(d: Descriptor, nav: Nav)
    requires d.infiniteScroll && d.loadOnInit && d.limit == 2
    ensures var s0 := Init(d, nav);
            var n1 := OnScrollSuccess(d, s0.nav, Known(3));
            var s2 := OnBoundary(n1, true);
            var n3 := OnScrollSuccess(d, s2.nav, Known(3));
            && s0.command == Scroll(true)
            && n1.offset == 2 && !n1.noMore && n1.ready
            && s2.command == Scroll(false)
            && n3.offset == 4 && n3.noMore
  {
  }
}

=== FILE: pager.dfy ===
/**
 The pager the `refresh` success handler builds under the table: an optional
 "Export to CSV" trigger, and — when the total count is at least `limit`, even
 if it fills just one page — a "previous" arrow, the text "Page n / m" and a
 "next" arrow.
 */
module Pager {
  import opened JsValues
  import opened GridTypes

  /** The navigation part: each arrow with the page it refreshes to. */
  datatype PagerNav = PagerNav(prev: Option<int>, text: string, next: Option<int>)

  datatype Pager = Pager(id: string, csvTrigger: bool, nav: Option<PagerNav>)

  /** `Math.floor(count / limit)` when the count is known; `null` otherwise. */
  function PageCount(count: Count, limit: PositiveInt): (r: Option<int>)
    ensures r.Some? <==> count.Known?
    ensures r.Some? ==> r.value * limit <= count.n < (r.value + 1) * limit
  {
    if count.Known? then Some(count.n / limit) else None
  }

  function PageLabel(noPage: int, total: int): string {
    "Page " + NumberToString(noPage + 1) + " / " + NumberToString(total)
  }

  lemma MulMonotone(a: int, b: int, l: PositiveInt)
    requires a <= b
    ensures a * l <= b * l
  {
  }

  /** `a < floor(n / l)` exactly when page `a + 1` starts within the count. */
  lemma BelowQuotient(a: int, n: int, l: PositiveInt)
    ensures a < n / l <==> (a + 1) * l <= n
  {
    var q := n / l;
    assert q * l <= n < (q + 1) * l;
    if a < q {
      MulMonotone(a + 1, q, l);
    }
    if (a + 1) * l <= n && a >= q {
      MulMonotone(q + 1, a + 1, l);
    }
  }

  /** The pager exactly as the success handler builds it. The text's
      " / total" part and the unknown-count branch of the next arrow sit
      inside `pageCount > 0`, which an unknown count never passes. */
  function BuildPagerAsWritten(d: Descriptor, noPage: int, resp: Response): (p: Pager)
    ensures p.id == d.pagerId
    ensures p.csvTrigger == d.exportCsv
    ensures p.nav.Some? <==> resp.count.Known? && resp.count.n >= d.limit
    ensures p.nav.Some? ==> (p.nav.value.prev.Some? <==> noPage > 0)
    ensures p.nav.Some? && p.nav.value.prev.Some? ==> p.nav.value.prev.value == noPage - 1
    ensures p.nav.Some? ==> (p.nav.value.next.Some? <==> (noPage + 1) * d.limit <= resp.count.n)
    ensures p.nav.Some? && p.nav.value.next.Some? ==> p.nav.value.next.value == noPage + 1
    ensures p.nav.Some? ==> p.nav.value.text == PageLabel(noPage, resp.count.n / d.limit + 1)
  {
    var pageCount := PageCount(resp.count, d.limit);
    if pageCount.Some? && pageCount.value > 0 then
      var prev := if noPage > 0 then Some(noPage - 1) else None;
      var text := "Page " + NumberToString(noPage + 1)
                   + (if resp.count.Known? then " / " + NumberToString(pageCount.value + 1) else "");
      var next :=
        if (resp.count.Known? && noPage < pageCount.value) || (!resp.count.Known? && |resp.data| == d.limit)
        then Some(noPage + 1) else None;
      BelowQuotient(noPage, resp.count.n, d.limit);
      BelowQuotient(0, resp.count.n, d.limit);
      Pager(d.pagerId, d.exportCsv, Some(PagerNav(prev, text, next)))
    else
      BelowQuotient(0, if resp.count.Known? then resp.count.n else 0, d.limit);
      Pager(d.pagerId, d.exportCsv, None)
  }

  /** Without a total count there is no text and no arrow at all, however
      full the page: the "data.length == limit" test is never reached. */
  lemma UnknownCountShowsNoNavigation(d: Descriptor, noPage: int, resp: Response)
    requires !resp.count.Known?
    ensures BuildPagerAsWritten(d, noPage, resp).nav == None
  {
  }

  /** With 4 rows of 2 per page, the second page offers a third one that
      starts past the last row, and the text counts three pages. */
  lemma ExactMultipleOffersEmptyPage()
    ensures var d := Descriptor("/items", "", 2, "", [], true, true, "", false, "", "", "", None);
            var p := BuildPagerAsWritten(d, 1, Response(Known(4), []));
            && p.nav.Some?
            && p.nav.value.next == Some(2)
            && 2 * d.limit >= 4
            && p.nav.value.text == PageLabel(1, 3)
  {
    var d := Descriptor("/items", "", 2, "", [], true, true, "", false, "", "", "", None);
    BelowQuotient(1, 4, 2);
  }

  /** The number of pages the rows of `count` fill: `ceil(count / limit)`. */
  function PagesFor(count: int, limit: PositiveInt): (r: nat)
    ensures count <= 0 ==> r == 0
    ensures count > 0 ==> (r - 1) * limit < count <= r * limit
  {
    if count <= 0 then 0
    else
      var q := (count + limit - 1) / limit;
      assert q * limit <= count + limit - 1 < (q + 1) * limit;
      q
  }

  /** `a < ceil(n / l) - 1` exactly when page `a + 1` holds a row. */
  lemma BelowLastPage(a: int, n: int, l: PositiveInt)
    requires a >= -1
    ensures a < PagesFor(n, l) - 1 <==> (a + 1) * l < n
  {
    var m := PagesFor(n, l);
    if n > 0 {
      if a < m - 1 {
        MulMonotone(a + 1, m - 1, l);
      }
      if (a + 1) * l < n && a >= m - 1 {
        MulMonotone(m, a + 1, l);
      }
    } else {
      MulMonotone(0, a + 1, l);
    }
  }

  /** The pager with the last page index `ceil(count / limit) - 1`: shown
      when the rows fill more than one page, the text counting the pages
      that hold rows, the next arrow only towards a page that holds one. */
  function BuildPager(d: Descriptor, noPage: int, resp: Response): (p: Pager)
    ensures p.id == d.pagerId
    ensures p.csvTrigger == d.exportCsv
    ensures p.nav.Some? <==> resp.count.Known? && resp.count.n > d.limit
    ensures p.nav.Some? ==> (p.nav.value.prev.Some? <==> noPage > 0)
    ensures p.nav.Some? && p.nav.value.prev.Some? ==> p.nav.value.prev.value == noPage - 1
    ensures p.nav.Some? && noPage >= 0 ==> (p.nav.value.next.Some? <==> (noPage + 1) * d.limit < resp.count.n)
    ensures p.nav.Some? && p.nav.value.next.Some? ==> p.nav.value.next.value == noPage + 1
    ensures p.nav.Some? ==> p.nav.value.text == PageLabel(noPage, PagesFor(resp.count.n, d.limit))
  {
    if resp.count.Known? && PagesFor(resp.count.n, d.limit) - 1 > 0 then
      var lastPage := PagesFor(resp.count.n, d.limit) - 1;
      var prev := if noPage > 0 then Some(noPage - 1) else None;
      var text := PageLabel(noPage, lastPage + 1);
      var next := if noPage < lastPage then Some(noPage + 1) else None;
      BelowLastPage(0, resp.count.n, d.limit);
      BelowLastPage(if noPage >= 0 then noPage else 0, resp.count.n, d.limit);
      Pager(d.pagerId, d.exportCsv, Some(PagerNav(prev, text, next)))
    else
      BelowLastPage(0, if resp.count.Known? then resp.count.n else 0, d.limit);
      Pager(d.pagerId, d.exportCsv, None)
  }

  lemma PagesForExactMultiple(n: int, l: PositiveInt)
    requires n > 0 && n % l == 0
    ensures PagesFor(n, l) == n / l
  {
    var q := n / l;
    assert n == q * l;
    var m := PagesFor(n, l);
    if m < q { MulMonotone(m, q - 1, l); }
    if m > q { MulMonotone(q, m - 1, l); }
  }

  lemma PagesForInexact(n: int, l: PositiveInt)
    requires n > 0 && n % l != 0
    ensures PagesFor(n, l) == n / l + 1
  {
    var q := n / l;
    assert n == q * l + n % l;
    assert q * l < n <= (q + 1) * l;
    var m := PagesFor(n, l);
    if m < q + 1 { MulMonotone(m, q, l); }
    if m > q + 1 { MulMonotone(q + 1, m - 1, l); }
  }

  lemma PagersDifferOnExactMultiple(d: Descriptor, noPage: int, resp: Response)
    requires resp.count.Known? && resp.count.n > 0 && resp.count.n % d.limit == 0
    ensures BuildPager(d, noPage, resp) != BuildPagerAsWritten(d, noPage, resp)
  {
    var n := resp.count.n;
    var q := n / d.limit;
    PagesForExactMultiple(n, d.limit);
    var fixed := BuildPager(d, noPage, resp);
    var written := BuildPagerAsWritten(d, noPage, resp);
    assert written.nav.Some? by {
      BelowQuotient(0, n, d.limit);
    }
    if fixed.nav.Some? && written.nav.value.text == fixed.nav.value.text {
      var pre := "Page " + NumberToString(noPage + 1) + " / ";
      assert written.nav.value.text == pre + NumberToString(q + 1);
      assert fixed.nav.value.text == pre + NumberToString(q);
      assert (pre + NumberToString(q + 1))[|pre|..] == NumberToString(q + 1);
      assert (pre + NumberToString(q))[|pre|..] == NumberToString(q);
      NumberToStringInjective(q + 1, q);
      assert false;
    }
  }

  lemma PagersAgreeOtherwise(d: Descriptor, noPage: int, resp: Response)
    requires !(resp.count.Known? && resp.count.n > 0 && resp.count.n % d.limit == 0)
    ensures BuildPager(d, noPage, resp) == BuildPagerAsWritten(d, noPage, resp)
  {
    if resp.count.Known? {
      var n := resp.count.n;
      if n > 0 {
        PagesForInexact(n, d.limit);
        var written := BuildPagerAsWritten(d, noPage, resp);
        if written.nav.Some? {
          assert written.nav.value.text == PageLabel(noPage, n / d.limit + 1);
        }
      } else {
        assert n / d.limit <= 0 by {
          BelowQuotient(0, n, d.limit);
        }
      }
    }
  }

  /** The corrected pager differs from the one as written exactly when the
      count is a positive multiple of the page size. */
  lemma PagersAgreeUnlessExactMultiple(d: Descriptor, noPage: int, resp: Response)
    ensures BuildPager(d, noPage, resp) == BuildPagerAsWritten(d, noPage, resp)
        <==> !(resp.count.Known? && resp.count.n > 0 && resp.count.n % d.limit == 0)
  {
    if resp.count.Known? && resp.count.n > 0 && resp.count.n % d.limit == 0 {
      PagersDifferOnExactMultiple(d, noPage, resp);
    } else {
      PagersAgreeOtherwise(d, noPage, resp);
    }
  }
}

=== FILE: render.dfy ===
/**
 What the success handlers of `refresh` and `scroll` put on the page,
 represented as values: the header row with its sort triggers, the body rows,
 the count display and the pager.
 */
module Render {
  import opened JsValues
  import opened GridTypes
  import opened Cells
  import opened Pager

  /** A header cell: its title and, for a sortable column, the sort key its
      two triggers ("up" and "down") set. */
  datatype HeaderCell = HeaderCell(title: string, sortKey: Option<JsValue>)

  /** The column's `display` as the value `sortKey` takes: the field key,
      the display function itself, or undefined. */
  function SortKeyOf(c: Column): JsValue {
    match c.display
    case NoDisplay => Undefined
    case FieldKey(k) => Str(k)
    case DisplayFn(_) => FunctionRef
  }

  /** `_generateHeaders`: one header cell per column, in column order. */
  function Headers(cols: seq<Column>): (r: seq<HeaderCell>)
    ensures |r| == |cols|
    ensures forall i :: 0 <= i < |cols| ==> r[i].title == cols[i].title
    ensures forall i :: 0 <= i < |cols| ==> (r[i].sortKey.Some? <==> cols[i].sortable)
    ensures forall i :: 0 <= i < |cols| && cols[i].sortable ==> r[i].sortKey.value == SortKeyOf(cols[i])
    decreases |cols|
  {
    if |cols| == 0 then []
    else
      var key := if cols[0].sortable then Some(SortKeyOf(cols[0])) else None;
      [HeaderCell(cols[0].title, key)] + Headers(cols[1..])
  }

  /** The element the count is written into: `countTarget`, or `#count`. */
  function CountTarget(d: Descriptor): (t: string)
    ensures t != ""
    ensures d.countTarget == "" ==> t == "#count"
    ensures d.countTarget != "" ==> t == d.countTarget
  {
    if d.countTarget == "" then "#count" else d.countTarget
  }

  /** The page a `refresh` success handler renders. */
  datatype GridView = GridView(
    countTarget: string,
    count: Count,
    tableClasses: string,
    header: seq<HeaderCell>,
    body: seq<RenderedRow>,
    pager: Pager)

  /** The `refresh` success handler for page `noPage`, `d` being the
      descriptor merged with the response's override. */
  function RefreshView(d: Descriptor, noPage: int, resp: Response): (v: GridView)
    ensures v.tableClasses == d.tableClasses
    ensures |v.header| == |d.columns|
    ensures forall i :: 0 <= i < |d.columns| ==> v.header[i].title == d.columns[i].title
    ensures forall i :: 0 <= i < |d.columns| ==> (v.header[i].sortKey.Some? <==> d.columns[i].sortable)
    ensures v.header == Headers(d.columns)
    ensures v.body == RenderResponseRows(d.rowCssClass, d.columns, resp.data)
    ensures |v.body| == |resp.data|
    ensures forall i :: 0 <= i < |v.body| ==> |v.body[i].cells| == |d.columns|
    ensures d.countTarget == "" ==> v.countTarget == "#count"
    ensures d.countTarget != "" ==> v.countTarget == d.countTarget
    ensures v.count == resp.count
    ensures v.pager.id == d.pagerId && v.pager.csvTrigger == d.exportCsv
    ensures v.pager.nav.Some? <==> resp.count.Known? && resp.count.n >= d.limit
    ensures v.pager.nav.Some? ==> (v.pager.nav.value.prev.Some? <==> noPage > 0)
    ensures v.pager.nav.Some? ==> (v.pager.nav.value.next.Some? <==> (noPage + 1) * d.limit <= resp.count.n)
    ensures v.pager.nav.Some? ==> v.pager.nav.value.text == PageLabel(noPage, resp.count.n / d.limit + 1)
    ensures v.pager == BuildPagerAsWritten(d, noPage, resp)
  {
    GridView(
      CountTarget(d), resp.count, d.tableClasses, Headers(d.columns),
      RenderResponseRows(d.rowCssClass, d.columns, resp.data),
      BuildPagerAsWritten(d, noPage, resp))
  }

  /** The same page with the corrected pager of `Pager.BuildPager`: shown
      only when the rows fill more than one page, and never offering a page
      that holds no row. */
  function CorrectedRefreshView(d: Descriptor, noPage: int, resp: Response): (v: GridView)
    ensures v.(pager := RefreshView(d, noPage, resp).pager) == RefreshView(d, noPage, resp)
    ensures v.pager.nav.Some? <==> resp.count.Known? && resp.count.n > d.limit
    ensures v.pager.nav.Some? && noPage >= 0 ==> (v.pager.nav.value.next.Some? <==> (noPage + 1) * d.limit < resp.count.n)
    ensures v.pager.nav.Some? ==> v.pager.nav.value.text == PageLabel(noPage, PagesFor(resp.count.n, d.limit))
    ensures v.pager == BuildPager(d, noPage, resp)
  {
    RefreshView(d, noPage, resp).(pager := BuildPager(d, noPage, resp))
  }

  /** The two views differ exactly when the count is a positive multiple of
      the page size. */
  lemma RefreshViewsDifferOnlyOnExactMultiple(d: Descriptor, noPage: int, resp: Response)
    ensures CorrectedRefreshView(d, noPage, resp) == RefreshView(d, noPage, resp)
        <==> !(resp.count.Known? && resp.count.n > 0 && resp.count.n % d.limit == 0)
  {
    PagersAgreeUnlessExactMultiple(d, noPage, resp);
    var v := RefreshView(d, noPage, resp);
    var c := CorrectedRefreshView(d, noPage, resp);
    assert c == v <==> c.pager == v.pager;
  }

  /** What a `scroll` success handler does to the page: a reset rebuilds the
      table, a continuation appends rows to it. The hidden "No more results"
      notice a reset also adds is markup only and has no field here. */
  datatype ScrollView =
    | Rebuilt(tableClasses: string, header: seq<HeaderCell>, body: seq<RenderedRow>)
    | Appended(body: seq<RenderedRow>)

  function ScrollViewOf(init: bool, d: Descriptor, resp: Response): (v: ScrollView)
    ensures v.Rebuilt? <==> init
    ensures v.body == RenderResponseRows(d.rowCssClass, d.columns, resp.data)
    ensures |v.body| == |resp.data|
    ensures v.Rebuilt? ==> v.tableClasses == d.tableClasses
    ensures v.Rebuilt? ==> |v.header| == |d.columns|
    ensures v.Rebuilt? ==> forall i :: 0 <= i < |d.columns| ==> v.header[i].title == d.columns[i].title
    ensures v.Rebuilt? ==> forall i :: 0 <= i < |d.columns| ==> (v.header[i].sortKey.Some? <==> d.columns[i].sortable)
    ensures v.Rebuilt? ==> v.header == Headers(d.columns)
  {
    var rows := RenderResponseRows(d.rowCssClass, d.columns, resp.data);
    if init then Rebuilt(d.tableClasses, Headers(d.columns), rows) else Appended(rows)
  }

  /** With 5 rows in all and 2 per page, the first page shows "Page 1 / 3",
      a next arrow to page 1 and no previous arrow. */
  lemma FirstPageExample(d: Descriptor, rows: seq<Row>)
    requires d.limit == 2
    ensures var p := RefreshView(d, 0, Response(Known(5), rows)).pager;
            && p.nav.Some?
            && p.nav.value.prev == None
            && p.nav.value.next == Some(1)
            && p.nav.value.text == "Page 1 / 3"
  {
    var p := RefreshView(d, 0, Response(Known(5), rows)).pager;
    assert 5 / 2 + 1 == 3;
    assert NumberToString(1) == "1";
    assert NumberToString(3) == "3";
  }
}

=== FILE: requests.dfy ===
/**
 The query parameters of the paging (`refresh`) and scrolling (`scroll`)
 requests: the resolved filters followed by `offset`, `limit`, `sort_key`
 and `sort_order`.
 */
module Requests {
  import opened JsValues
  import opened GridTypes
  import opened Filters

  /** The four entries pushed after the filters, in this order. */
  function Reserved(offset: int, limit: PositiveInt, sortKey: JsValue, sortOrder: JsValue): seq<Param> {
    [Param("offset", Num(offset)), Param("limit", Num(limit)),
     Param("sort_key", sortKey), Param("sort_order", sortOrder)]
  }

  predicate IsReservedName(name: string) {
    name == "offset" || name == "limit" || name == "sort_key" || name == "sort_order"
  }

  /** The value a reader of the query string keeps for `name` when it is sent
      several times: the last one. */
  function LastValue(ps: seq<Param>, name: string): (r: Option<JsValue>)
    ensures r.None? <==> forall i :: 0 <= i < |ps| ==> ps[i].name != name
    ensures r.Some? ==> exists i :: 0 <= i < |ps| && ps[i].name == name && ps[i].value == r.value
                           && forall j :: i < j < |ps| ==> ps[j].name != name
    decreases |ps|
  {
    if |ps| == 0 then None
    else if ps[|ps| - 1].name == name then Some(ps[|ps| - 1].value)
    else
      var front := ps[..|ps| - 1];
      var r := LastValue(front, name);
      assert forall i :: 0 <= i < |front| ==> front[i] == ps[i];
      if r.Some? then
        var i :| 0 <= i < |front| && front[i].name == name && front[i].value == r.value
                 && forall j :: i < j < |front| ==> front[j].name != name;
        assert ps[i].name == name && ps[i].value == r.value && forall j :: i < j < |ps| ==> ps[j].name != name;
        r
      else r
  }

  /** A later occurrence of a name hides every earlier one. */
  lemma {:induction false} LastValueAppend(a: seq<Param>, b: seq<Param>, name: string)
    ensures LastValue(a + b, name) == if LastValue(b, name).Some? then LastValue(b, name) else LastValue(a, name)
    decreases |b|
  {
    if |b| > 0 {
      assert (a + b)[..|a + b| - 1] == a + b[..|b| - 1];
      LastValueAppend(a, b[..|b| - 1], name);
    } else {
      assert a + b == a;
    }
  }

  /** The filters followed by the four paging entries. */
  function WithPaging(filters: seq<Param>, offset: int, limit: PositiveInt, sortKey: JsValue, sortOrder: JsValue): (r: seq<Param>)
    ensures |r| == |filters| + 4
    ensures r[..|filters|] == filters
    ensures r[|filters|..] == Reserved(offset, limit, sortKey, sortOrder)
  {
    filters + Reserved(offset, limit, sortKey, sortOrder)
  }

  lemma ReservedLastValues(offset: int, limit: PositiveInt, sortKey: JsValue, sortOrder: JsValue, name: string)
    ensures LastValue(Reserved(offset, limit, sortKey, sortOrder), "offset") == Some(Num(offset))
    ensures LastValue(Reserved(offset, limit, sortKey, sortOrder), "limit") == Some(Num(limit))
    ensures LastValue(Reserved(offset, limit, sortKey, sortOrder), "sort_key") == Some(sortKey)
    ensures LastValue(Reserved(offset, limit, sortKey, sortOrder), "sort_order") == Some(sortOrder)
    ensures !IsReservedName(name) ==> LastValue(Reserved(offset, limit, sortKey, sortOrder), name) == None
  {
    var tail := Reserved(offset, limit, sortKey, sortOrder);
    assert tail[..3] == [Param("offset", Num(offset)), Param("limit", Num(limit)), Param("sort_key", sortKey)];
    assert tail[..3][..2] == [Param("offset", Num(offset)), Param("limit", Num(limit))];
    assert tail[..3][..2][..1] == [Param("offset", Num(offset))];
    assert tail[..3][..2][..1][..0] == [];
    assert LastValue(tail[..3][..2][..1], "offset") == Some(Num(offset));
    assert LastValue(tail[..3][..2], "offset") == Some(Num(offset));
    assert LastValue(tail[..3], "offset") == Some(Num(offset));
    assert LastValue(tail[..3][..2], "limit") == Some(Num(limit));
    assert LastValue(tail[..3], "limit") == Some(Num(limit));
    assert LastValue(tail[..3], "sort_key") == Some(sortKey);
    assert LastValue(tail, "sort_key") == Some(sortKey);
    assert LastValue(tail, "sort_order") == Some(sortOrder);
  }

  /** Whatever the filters hold, the request's paging entries are the ones
      the grid appended, and every other name keeps its filter value. */
  lemma ReservedEntriesWin(filters: seq<Param>, offset: int, limit: PositiveInt, sortKey: JsValue, sortOrder: JsValue, name: string)
    ensures LastValue(WithPaging(filters, offset, limit, sortKey, sortOrder), "offset") == Some(Num(offset))
    ensures LastValue(WithPaging(filters, offset, limit, sortKey, sortOrder), "limit") == Some(Num(limit))
    ensures LastValue(WithPaging(filters, offset, limit, sortKey, sortOrder), "sort_key") == Some(sortKey)
    ensures LastValue(WithPaging(filters, offset, limit, sortKey, sortOrder), "sort_order") == Some(sortOrder)
    ensures !IsReservedName(name) ==> LastValue(WithPaging(filters, offset, limit, sortKey, sortOrder), name) == LastValue(filters, name)
  {
    var tail := Reserved(offset, limit, sortKey, sortOrder);
    ReservedLastValues(offset, limit, sortKey, sortOrder, name);
    LastValueAppend(filters, tail, "offset");
    LastValueAppend(filters, tail, "limit");
    LastValueAppend(filters, tail, "sort_key");
    LastValueAppend(filters, tail, "sort_order");
    LastValueAppend(filters, tail, name);
  }

  /** `refresh(noPage, filters)`: the page's first row is `noPage * limit`. */
  function RefreshParams(
    d: Descriptor, sortKey: JsValue, sortOrder: JsValue, noPage: int,
    explicit: Option<seq<Param>>, serialize: string -> seq<Param>): (r: seq<Param>)
    ensures |r| == |GetFilters(d, explicit, serialize)| + 4
    ensures r[..|GetFilters(d, explicit, serialize)|] == GetFilters(d, explicit, serialize)
    ensures r[|GetFilters(d, explicit, serialize)|..] == Reserved(noPage * d.limit, d.limit, sortKey, sortOrder)
    ensures LastValue(r, "offset") == Some(Num(noPage * d.limit))
    ensures LastValue(r, "limit") == Some(Num(d.limit))
    ensures LastValue(r, "sort_key") == Some(sortKey)
    ensures LastValue(r, "sort_order") == Some(sortOrder)
  {
    var filters := GetFilters(d, explicit, serialize);
    ReservedEntriesWin(filters, noPage * d.limit, d.limit, sortKey, sortOrder, "offset");
    WithPaging(filters, noPage * d.limit, d.limit, sortKey, sortOrder)
  }

  /** `scroll(init)`: the request starts at the scroll offset; explicit
      filters are never passed here. */
  function ScrollParams(
    d: Descriptor, sortKey: JsValue, sortOrder: JsValue, offset: int,
    serialize: string -> seq<Param>): (r: seq<Param>)
    ensures |r| == |GetFilters(d, None, serialize)| + 4
    ensures r[..|GetFilters(d, None, serialize)|] == GetFilters(d, None, serialize)
    ensures r[|GetFilters(d, None, serialize)|..] == Reserved(offset, d.limit, sortKey, sortOrder)
    ensures LastValue(r, "offset") == Some(Num(offset))
    ensures LastValue(r, "limit") == Some(Num(d.limit))
    ensures LastValue(r, "sort_key") == Some(sortKey)
    ensures LastValue(r, "sort_order") == Some(sortOrder)
  {
    var filters := GetFilters(d, None, serialize);
    ReservedEntriesWin(filters, offset, d.limit, sortKey, sortOrder, "offset");
    WithPaging(filters, offset, d.limit, sortKey, sortOrder)
  }
}
